=== FILE: README.md ===
# Points ledger and reward redemption — a Dafny model

This project models the point-affecting views of a tournament platform's
Django backend (`authapp/views.py`). Each view runs as one atomic request
against an abstract store. The store holds:

- per-user point balances (one profile per user),
- the tournaments,
- the participant rows,
- the reward catalogue (cost, stock, active flag),
- the claim rows,
- the game table (a status per game),
- the append-only activity ledger of `(user, type, points_change)` entries.

Each view is a pure function `State × inputs → Result<State, Error>`:

- joining a tournament (+10 points),
- leaving a tournament (−10 points),
- claiming a reward (−cost points, −1 stock),
- submitting a game (+25 points),
- updating a game's status (no points),
- the ledger row of a login (0 points).

The dashboard is a read-only projection of the store.

Modules:

- `Wrappers` (`wrappers.dfy`): `Option` and `Result`.
- `Ledger` (`ledger.dfy`): ledger entries and the per-user net change `Net`. It also holds the invariant `Balanced`: every balance equals its starting value plus the net change the ledger records for that user.
- `Store` (`store.dfy`): the store, the row deletion `Without`, and the invariants `Valid`: no double membership, no negative stock, fresh game ids. It also holds `Credit`, the one primitive that moves a balance and appends the matching ledger entry.
- `Views` (`views.dfy`): the views, each with its error cases in the order the source checks them.
- `Dashboard` (`dashboard.dfy`): the dashboard projection. Its activity list is collected by a backwards loop and proved equal to the reverse of the user's entries, cut to 20.
- `Requests` (`requests.dfy`): one request as a step and a sequence of requests as a run. It proves the invariants over any run, that a refused request changes nothing, and that a request never changes another user's dashboard.
- `Workflows` (`workflows.dfy`): lemmas that relate several views, such as the join/leave round trip and each view's effect on the caller's dashboard.
- `Scenarios` (`scenarios.dfy`): concrete request sequences on a small store.

Modelling choices:

- The permission check of the views is modelled as "the user has a profile" (`u in s.points`). Failing it gives `NotAuthenticated`, checked before anything else.
- The game serializer and the login serializer are not part of this model. Their verdicts are the boolean inputs `valid` and `credentialsOk`.
- The request's reward id is an `Option<int>`: absent, or an integer. It is falsy when absent or zero. A truthy id that names no reward, a negative one included, gives `RewardNotFound`.
- The game status keys are taken to be `pending`, `testing`, `approved` and `rejected`. `authapp/models.py`, which declares the status choices, is not among the files modelled here.
- The leave view looks the participant row up as a single row. So two rows for one pair would raise an uncaught error. The model returns `MultipleMemberships` for that case and proves a valid store never reaches it.
- A ledger entry's position stands for its timestamp. Newest first means from the end of the ledger.
- The dashboard's tournament and reward lists are in insertion order (table order). The view's queries name no ordering, so the real order depends on the database or on model defaults that are not part of this model.

The model keeps these behaviours of the code as written:

- The claim view rejects a missing or falsy reward id before it looks the reward up.
- The code does not require a reward's cost to be positive, so the model allows any integer cost. A claim still never leaves the caller below zero, because it needs `points >= cost`.
- A submitted game keeps the status it was submitted with. No initial status is forced.
- Leaving without a participant row answers "not enrolled", not "not found".
- Any authenticated user may update any game's status. The view has no role or ownership check, so the model has none either.

## Model

| member | source | states |
|---|---|---|
| Views.Join | authapp/views.py:167-195 | Unknown tournament fails with `TournamentNotFound`. An existing row fails with `AlreadyJoined`. Otherwise the join succeeds: it adds exactly one participant row (the pair then has exactly one row), raises the balance by 10, appends one `TournamentJoin` entry of +10, and changes nothing else |
| Views.Leave | authapp/views.py:198-225 | Unknown tournament fails with `TournamentNotFound`. No row fails with `NotEnrolled`. Several rows fail with `MultipleMemberships`. Otherwise the leave succeeds: it removes the row, keeps every other pair's row count, lowers the balance by 10 with no floor, appends one `TournamentLeave` entry of −10, and changes nothing else |
| Views.ClaimReward | authapp/views.py:253-296 | The checks run in order and the first failure decides the response: missing or falsy id, unknown reward, inactive, `stock <= 0`, `points < cost`. Success appends one claim row, lowers the balance by the cost, lowers that reward's stock by 1 and changes no other reward. It appends one `RewardClaim` entry of −cost. Afterwards the stock is ≥ 0 and the caller's balance is ≥ 0 |
| Views.SubmitGame | authapp/views.py:325-342 | An invalid submission fails and changes nothing. Success stores the game with the submitted status under a fresh id, raises the balance by 25, appends one `PointsEarned` entry of +25, and leaves rows, claims, rewards and tournaments alone |
| Views.ParseStatus | authapp/views.py:353-356 | A status is accepted only when the request carries exactly that status's key |
| Views.ParseStatusKey | authapp/views.py:355 | Every status key is accepted as the status it names (the converse of `ParseStatus`'s contract) |
| Views.UpdateGameStatus | authapp/views.py:345-363 | Unknown game fails with `GameNotFound`. A value outside the status choices fails with `InvalidStatus`. Success sets only that game's status, with no balance or ledger change |
| Views.LogIn | authapp/views.py:88-99 | A valid login appends one `Login` entry of 0 and leaves balances and all tables unchanged |
| Store.Without | authapp/views.py:206-207 | Deleting the participant rows of a pair removes every copy of that pair and keeps every other row |
| Ledger.NetAppend | authapp/views.py:181-187 | Appending an entry adds its `points_change` to its own user's net change and nothing to anyone else's |
| Ledger.PostKeepsBalanced | authapp/views.py:181-191 | Moving a balance by `e.points_change` together with appending `e` keeps every balance equal to start + ledger net |
| Store.CreditKeepsBalanced | authapp/views.py:286-292 | The shared balance-and-entry update of every view keeps balances and ledger in agreement |
| Requests.Step | authapp/views.py:88-363 | A refused request leaves the store unchanged. An accepted one grows the ledger by at most one entry as an append, and never adds or drops a user |
| Requests.StepPreservesValid | authapp/views.py:88-363 | Every request keeps at most one participant row per pair, keeps all stock ≥ 0 and keeps game ids fresh. A valid store never yields the duplicate-row error |
| Requests.StepKeepsBalanced | authapp/views.py:88-363 | Every request, of every kind, keeps each balance equal to its starting value plus its ledger net |
| Requests.JoinKeepsBalanced | authapp/views.py:181-191 | The +10 of a join is exactly the `points_change` of the entry it appends |
| Requests.LeaveKeepsBalanced | authapp/views.py:209-219 | The −10 of a leave is exactly the `points_change` of the entry it appends |
| Requests.ClaimKeepsBalanced | authapp/views.py:278-292 | The −cost of a claim is exactly the `points_change` of the entry it appends |
| Requests.SubmitKeepsBalanced | authapp/views.py:330-339 | The +25 of a game submission is exactly the `points_change` of the entry it appends |
| Requests.LoginKeepsBalanced | authapp/views.py:94-99 | A login's zero entry goes with an unchanged balance |
| Requests.JoinPreservesValid | authapp/views.py:176-179 | The existence check before the insert keeps at most one participant row per pair |
| Requests.LeavePreservesValid | authapp/views.py:205-207 | In a valid store the single-row lookup never finds two rows, and deleting the row keeps rows unique |
| Requests.ClaimPreservesValid | authapp/views.py:270-284 | Because the stock guard runs before the decrement, a claim keeps every stock ≥ 0 |
| Requests.RunPreservesValid | authapp/views.py:88-363 | Any sequence of requests keeps the store invariants (no double membership, stock never negative) |
| Requests.RunKeepsBalanced | authapp/views.py:88-363 | Any sequence of requests keeps balances and ledger in agreement, and the old ledger stays a prefix of the new one |
| Requests.LedgerAccountsForBalances | authapp/views.py:88-363 | From an empty ledger, after any requests, `balance(u) − initial(u)` equals the sum of `points_change` over u's entries |
| Requests.StepIsolation | authapp/views.py:369-395 | A request by one user leaves every other user's dashboard (rows, claims, activity, balance) unchanged |
| Requests.JoinIsolation | authapp/views.py:179-191 | A join changes no other user's dashboard |
| Requests.LeaveIsolation | authapp/views.py:206-219 | A leave changes no other user's dashboard |
| Requests.ClaimIsolation | authapp/views.py:276-292 | A claim changes no other user's dashboard |
| Dashboard.RecentActivity | authapp/views.py:379 | Walking the ledger backwards collects the caller's 20 newest entries. The result is the reverse of the caller's entries, cut to 20 |
| Dashboard.DashboardData | authapp/views.py:369-395 | Every caller with a profile gets a board, and only they do. The dashboard lists the caller's rows, claims and 20 newest entries. `totalTournaments` and `totalRewards` are the lengths of those lists and `totalPoints` is the balance. The result is the same board the isolation and dashboard lemmas speak of |
| Dashboard.NewestFirstIsReversed | authapp/views.py:379 | Reading the ledger from its end yields exactly the caller's entries in reverse order |
| Dashboard.ActivityIsOwn | authapp/views.py:379 | The activity list holds only the caller's entries, as many as they have up to 20 |
| Dashboard.TournamentsOfWithout | authapp/views.py:377-381 | Deleting a pair's rows leaves other users' tournament lists alone. It shortens that user's list by the number of rows deleted |
| Workflows.MembershipSurvivesStep | authapp/views.py:88-363 | A participant row survives any one request other than a leave of that pair, and no request changes the tournaments |
| Workflows.MembershipPersists | authapp/views.py:88-363 | Over any requests with no leave of the pair, its participant row stays, and the users and tournaments stay the same |
| Workflows.JoinTwiceFails | authapp/views.py:174-177 | Joining again fails with `AlreadyJoined` after any requests in between, provided none of them is a leave of that pair |
| Workflows.JoinThenLeave | authapp/views.py:179-219 | Leave right after join succeeds and restores rows and balances. The ledger keeps both entries, whose net is 0. Joining again is allowed |
| Workflows.NewestEntryShownFirst | authapp/views.py:379 | A new entry of the caller is the first activity on their dashboard |
| Workflows.JoinOnDashboard | authapp/views.py:377-394 | After a join, the caller's tournament list gains the tournament, the count rises by 1, points rise by 10, and the join entry is the newest activity |
| Workflows.LeaveOnDashboard | authapp/views.py:377-394 | After a leave, the caller's tournament count falls by 1, points fall by 10, and the leave entry is the newest activity |
| Workflows.ClaimOnDashboard | authapp/views.py:377-394 | After a claim, the caller's reward list gains the reward, the count rises by 1, points fall by the cost, and the claim entry is the newest activity |
| Scenarios.JoinScenario | authapp/views.py:179-191 | A user with 150 points who joins has 160 and one `TournamentJoin` entry of +10 |
| Scenarios.InsufficientPointsScenario | authapp/views.py:273-274 | A user with 150 points claiming a 300-point reward gets `InsufficientPoints` |
| Scenarios.LastUnitScenario | authapp/views.py:270-284 | With stock 1, cost 300 and a balance of 500, the claim leaves 200 points and stock 0. Every later claim by any user is out of stock |
| Scenarios.LeaveOverdrawScenario | authapp/views.py:217-219 | Leaving with 5 points leaves −5: the source has no floor |
| Scenarios.RewardIdScenario | authapp/views.py:259-265 | A zero or absent id is refused as missing; a negative id passes the falsy check and is not found |
| Scenarios.SubmitScenario | authapp/views.py:330-339 | A submitted game gives +25 through one `PointsEarned` entry |

## Left out

- JWT token generation, session login and logout, and registration: they delegate to libraries and serializers that are not part of this model. Only the ledger row of a login is modelled.
- Serializer validation of games and login credentials: it becomes a boolean input.
- The frontend view that serves the built client is file-system I/O.
- Serializer output shapes, HTTP status codes and URL routing. Each error response is an `Error` constructor.
- Tournament creation, listing and detail, reward listing, user lists and the user view: plain reads or CRUD with no rules.
- Timestamps: ledger position stands for them. Description strings are dropped.
- Concurrency, `F()` relative updates and transaction atomicity. Each request is one sequential atomic step, and `F('points') ± n` is plain integer arithmetic.
- Field constraints declared in `authapp/models.py` (for instance whether points may be negative at the database level): that file is not among the files modelled here, so balances are unbounded integers.
- Capacity and status of a tournament: the join view checks neither `max_participants` nor the tournament status, so the model does not either.
- Views.ClaimReward: it takes integer reward ids only. A numeric string id acts like its integer, except the string "0". That string is truthy, so it passes the falsy check at views.py:261 and gets `RewardNotFound`, where the model's `Some(0)` gets `RewardIdRequired`. A non-numeric string makes the lookup raise an uncaught error. Neither case is modelled.
- Views.UpdateGameStatus: it takes string statuses only. A JSON list or object as the status cannot be hashed, so the membership test at views.py:355 raises an uncaught error; the request fails as a server error and the store is unchanged. That path is not modelled.
- Dashboard.DashboardData: it returns the caller's tournament ids and reward ids, not the serialized participant and claim rows.

=== FILE: dashboard.dfy ===
/**
  The dashboard: a read-only projection of the store for one user — their
  participant rows, their claims, their most recent activity (newest first)
  and the summary counts.
 */
module Dashboard {
  import opened Wrappers
  import opened Ledger
  import opened Store
  import opened Views

  /** How many activity entries the dashboard shows. */
  const ActivityLimit: nat := 20

  datatype Stats = Stats(totalTournaments: nat, totalRewards: nat, totalPoints: int)

  datatype Board = Board(
    tournaments: seq<TournamentId>,
    rewards: seq<RewardId>,
    activity: seq<Entry>,
    stats: Stats)

  /** The tournaments of `u`'s participant rows, in table order. */
  function TournamentsOf(rows: seq<Membership>, u: UserId): seq<TournamentId>
  {
    if rows == [] then []
    else (if rows[0].user == u then [rows[0].tournament] else []) + TournamentsOf(rows[1..], u)
  }

  /** The rewards of `u`'s claim rows, in table order. */
  function RewardsOf(claims: seq<Claim>, u: UserId): seq<RewardId>
  {
    if claims == [] then []
    else (if claims[0].user == u then [claims[0].reward] else []) + RewardsOf(claims[1..], u)
  }

  /** `u`'s ledger entries, oldest first. */
  function EntriesOf(log: seq<Entry>, u: UserId): seq<Entry>
  {
    if log == [] then []
    else (if log[0].user == u then [log[0]] else []) + EntriesOf(log[1..], u)
  }

  /** `u`'s ledger entries read from the end of the ledger: newest first. */
  function NewestFirst(log: seq<Entry>, u: UserId): seq<Entry>
  {
    if log == [] then []
    else
      var last := log[|log| - 1];
      (if last.user == u then [last] else []) + NewestFirst(log[..|log| - 1], u)
  }

  function Reverse<T>(xs: seq<T>): seq<T>
  {
    if xs == [] then [] else Reverse(xs[1..]) + [xs[0]]
  }

  /** At most the first `n` elements of `xs`. */
  function Take<T>(xs: seq<T>, n: nat): (r: seq<T>)
    ensures |r| == (if |xs| <= n then |xs| else n)
    ensures r == xs[..|r|]
  {
    if |xs| <= n then xs else xs[..n]
  }

  /** The dashboard of user `u` as a value. */
  function BoardOf(s: State, u: UserId): Board
    requires u in s.points
  {
    var ts := TournamentsOf(s.members, u);
    var rs := RewardsOf(s.claims, u);
    Board(ts, rs, Take(Reverse(EntriesOf(s.ledger, u)), ActivityLimit), Stats(|ts|, |rs|, s.points[u]))
  }

  /**
    Collects the `limit` newest entries of `u` by walking the ledger
    backwards from its end.
   */
  method RecentActivity(log: seq<Entry>, u: UserId, limit: nat) returns (r: seq<Entry>)
    ensures r == Take(Reverse(EntriesOf(log, u)), limit)
  {
    r := [];
    var i := |log|;
    assert log[..i] == log;
    while i > 0 && |r| < limit
      invariant 0 <= i <= |log|
      invariant |r| <= limit
      invariant NewestFirst(log, u) == r + NewestFirst(log[..i], u)
    {
      NewestFirstStep(log, u, r, i);
      i := i - 1;
      r := r + (if log[i].user == u then [log[i]] else []);
    }
    TakeOfSplit(NewestFirst(log, u), r, NewestFirst(log[..i], u), limit);
    NewestFirstIsReversed(log, u);
  }

  /** One step of the backwards walk: the entry at `i - 1` is the next one shown. */
  lemma NewestFirstStep(log: seq<Entry>, u: UserId, r: seq<Entry>, i: nat)
    requires 0 < i <= |log|
    requires NewestFirst(log, u) == r + NewestFirst(log[..i], u)
    ensures NewestFirst(log, u) ==
              (r + (if log[i - 1].user == u then [log[i - 1]] else [])) + NewestFirst(log[..i - 1], u)
  {
    assert log[..i][..i - 1] == log[..i - 1];
  }

  /** A prefix that reached the limit, or that is everything, is the cut at the limit. */
  lemma TakeOfSplit<T>(xs: seq<T>, r: seq<T>, rest: seq<T>, limit: nat)
    requires xs == r + rest && |r| <= limit
    requires |r| == limit || rest == []
    ensures r == Take(xs, limit)
  {
    if rest == [] {
      assert xs == r;
    } else {
      assert xs[..limit] == r;
    }
  }

  /**
    The dashboard view: the caller's rows, the `ActivityLimit` newest
    activity entries, and the counts, which match the lists they summarise.
   */
  method DashboardData(s: State, u: UserId) returns (r: Result<Board, Error>)
    ensures u !in s.points <==> r == Failure(NotAuthenticated)
    ensures r.Success? <==> u in s.points
    ensures r.Success? ==>
              && u in s.points
              && r.value.tournaments == TournamentsOf(s.members, u)
              && r.value.rewards == RewardsOf(s.claims, u)
              && r.value.activity == Take(Reverse(EntriesOf(s.ledger, u)), ActivityLimit)
              && r.value.stats.totalTournaments == |r.value.tournaments|
              && r.value.stats.totalRewards == |r.value.rewards|
              && r.value.stats.totalPoints == s.points[u]
    ensures r.Success? ==> r.value == BoardOf(s, u)
  {
    if u !in s.points {
      return Failure(NotAuthenticated);
    }
    var activity := RecentActivity(s.ledger, u, ActivityLimit);
    var ts := TournamentsOf(s.members, u);
    var rs := RewardsOf(s.claims, u);
    r := Success(Board(ts, rs, activity, Stats(|ts|, |rs|, s.points[u])));
  }

  lemma {:induction false} ReverseAppend<T>(a: seq<T>, b: seq<T>)
    ensures Reverse(a + b) == Reverse(b) + Reverse(a)
  {
    if a == [] {
      assert a + b == b;
    } else {
      assert (a + b)[1..] == a[1..] + b;
      ReverseAppend(a[1..], b);
    }
  }

  lemma {:induction false} EntriesOfAppend(a: seq<Entry>, b: seq<Entry>, u: UserId)
    ensures EntriesOf(a + b, u) == EntriesOf(a, u) + EntriesOf(b, u)
  {
    if a == [] {
      assert a + b == b;
    } else {
      var ab := a + b;
      assert ab[1..] == a[1..] + b;
      assert ab != [] && ab[0] == a[0];
      EntriesOfAppend(a[1..], b, u);
      var h := if a[0].user == u then [a[0]] else [];
      calc {
        EntriesOf(ab, u);
        h + EntriesOf(ab[1..], u);
        h + (EntriesOf(a[1..], u) + EntriesOf(b, u));
        (h + EntriesOf(a[1..], u)) + EntriesOf(b, u);
      }
    }
  }

  /** Reading the ledger from its end gives `u`'s entries in reverse order. */
  lemma {:induction false} NewestFirstIsReversed(log: seq<Entry>, u: UserId)
    ensures NewestFirst(log, u) == Reverse(EntriesOf(log, u))
  {
    if log != [] {
      var init, last := log[..|log| - 1], log[|log| - 1];
      assert log == init + [last];
      NewestFirstIsReversed(init, u);
      EntriesOfAppend(init, [last], u);
      assert [last][1..] == [];
      ReverseAppend(EntriesOf(init, u), EntriesOf([last], u));
    }
  }

  /**
    The dashboard's activity holds only `u`'s own entries, as many as `u`
    has up to `ActivityLimit`.
   */
  lemma ActivityIsOwn(log: seq<Entry>, u: UserId)
    ensures var a := Take(Reverse(EntriesOf(log, u)), ActivityLimit);
            && |a| == (if |EntriesOf(log, u)| <= ActivityLimit then |EntriesOf(log, u)| else ActivityLimit)
            && forall e :: e in a ==> e.user == u
  {
    NewestFirstIsReversed(log, u);
    NewestFirstIsOwn(log, u);
    ReverseLength(EntriesOf(log, u));
  }

  lemma {:induction false} NewestFirstIsOwn(log: seq<Entry>, u: UserId)
    ensures forall e :: e in NewestFirst(log, u) ==> e.user == u
  {
    if log != [] {
      NewestFirstIsOwn(log[..|log| - 1], u);
    }
  }

  lemma {:induction false} ReverseLength<T>(xs: seq<T>)
    ensures |Reverse(xs)| == |xs|
  {
    if xs != [] {
      ReverseLength(xs[1..]);
    }
  }

  lemma {:induction false} TournamentsOfAppend(a: seq<Membership>, b: seq<Membership>, u: UserId)
    ensures TournamentsOf(a + b, u) == TournamentsOf(a, u) + TournamentsOf(b, u)
  {
    if a == [] {
      assert a + b == b;
    } else {
      var ab := a + b;
      assert ab[1..] == a[1..] + b;
      assert ab != [] && ab[0] == a[0];
      TournamentsOfAppend(a[1..], b, u);
      var h := if a[0].user == u then [a[0].tournament] else [];
      calc {
        TournamentsOf(ab, u);
        h + TournamentsOf(ab[1..], u);
        h + (TournamentsOf(a[1..], u) + TournamentsOf(b, u));
        (h + TournamentsOf(a[1..], u)) + TournamentsOf(b, u);
      }
    }
  }

  lemma {:induction false} RewardsOfAppend(a: seq<Claim>, b: seq<Claim>, u: UserId)
    ensures RewardsOf(a + b, u) == RewardsOf(a, u) + RewardsOf(b, u)
  {
    if a == [] {
      assert a + b == b;
    } else {
      var ab := a + b;
      assert ab[1..] == a[1..] + b;
      assert ab != [] && ab[0] == a[0];
      RewardsOfAppend(a[1..], b, u);
      var h := if a[0].user == u then [a[0].reward] else [];
      calc {
        RewardsOf(ab, u);
        h + RewardsOf(ab[1..], u);
        h + (RewardsOf(a[1..], u) + RewardsOf(b, u));
        (h + RewardsOf(a[1..], u)) + RewardsOf(b, u);
      }
    }
  }

  /**
    Deleting the rows of `m` leaves the list of another user untouched and
    shortens `m.user`'s list by the number of rows deleted.
   */
  lemma {:induction false} TournamentsOfWithout(rows: seq<Membership>, m: Membership, u: UserId)
    ensures m.user != u ==> TournamentsOf(Without(rows, m), u) == TournamentsOf(rows, u)
    ensures m.user == u ==> |TournamentsOf(Without(rows, m), u)| == |TournamentsOf(rows, u)| - multiset(rows)[m]
  {
    if rows != [] {
      assert rows == [rows[0]] + rows[1..];
      var head := if rows[0] == m then [] else [rows[0]];
      if rows[0] != m {
        assert head[1..] == [];
      }
      TournamentsOfAppend(head, Without(rows[1..], m), u);
      TournamentsOfWithout(rows[1..], m, u);
    }
  }
}

=== FILE: ledger.dfy ===
/**
  The activity ledger: an append-only sequence of signed point changes,
  one entry per point-affecting event, oldest first.
 */
module Ledger {
  import opened Wrappers

  type UserId = nat
  type TournamentId = nat
  type RewardId = nat

  /** The activity types the views write. */
  datatype Kind = Login | TournamentJoin | TournamentLeave | RewardClaim | PointsEarned

  /** One ledger row; its position in the ledger stands for its timestamp. */
  datatype Entry = Entry(
    user: UserId,
    kind: Kind,
    pointsChange: int,
    tournament: Option<TournamentId>,
    reward: Option<RewardId>)

  /** What entry `e` contributes to the running total of user `u`. */
  function Share(e: Entry, u: UserId): int
  {
    if e.user == u then e.pointsChange else 0
  }

  /** The sum of `pointsChange` over the entries of `u`, read oldest first. */
  function Net(log: seq<Entry>, u: UserId): int
  {
    if log == [] then 0 else Share(log[0], u) + Net(log[1..], u)
  }

  /** Appending one entry adds exactly that entry's share to each user's total. */
  lemma {:induction false} NetAppend(log: seq<Entry>, e: Entry, u: UserId)
    ensures Net(log + [e], u) == Net(log, u) + Share(e, u)
  {
    if log == [] {
      assert [e][1..] == [];
    } else {
      assert (log + [e])[1..] == log[1..] + [e];
      NetAppend(log[1..], e, u);
    }
  }

  /**
    Every balance is its starting value `base` plus the net change the
    ledger records for that user.
   */
  ghost predicate Balanced(base: map<UserId, int>, points: map<UserId, int>, log: seq<Entry>)
  {
    && points.Keys == base.Keys
    && forall u :: u in points ==> points[u] == base[u] + Net(log, u)
  }

  /**
    Moving a balance by `e.pointsChange` while appending `e` to the ledger
    keeps every balance in agreement with the ledger.
   */
  lemma PostKeepsBalanced(base: map<UserId, int>, points: map<UserId, int>, log: seq<Entry>, e: Entry)
    requires Balanced(base, points, log)
    requires e.user in points
    ensures Balanced(base, points[e.user := points[e.user] + e.pointsChange], log + [e])
  {
    forall v | v in points {
      NetAppend(log, e, v);
    }
  }
}

=== FILE: requests.dfy ===
/**
  Requests against the store, executed one at a time. A refused request
  leaves the store exactly as it was.
 */
module Requests {
  import opened Wrappers
  import opened Ledger
  import opened Store
  import opened Views
  import opened Dashboard

  /** The point-affecting requests, each made by `user`. */
  datatype Request =
    | JoinReq(user: UserId, tournament: TournamentId)
    | LeaveReq(user: UserId, tournament: TournamentId)
    | ClaimReq(user: UserId, rewardId: Option<int>)
    | SubmitReq(user: UserId, valid: bool, status: GameStatus)
    | StatusReq(user: UserId, game: GameId, rawStatus: Option<string>)
    | LoginReq(user: UserId, credentialsOk: bool)

  datatype Outcome = Accepted | Refused(error: Error)

  function Handle(s: State, req: Request): Result<State, Error>
  {
    match req
    case JoinReq(u, t) => Join(s, u, t)
    case LeaveReq(u, t) => Leave(s, u, t)
    case ClaimReq(u, rid) => ClaimReward(s, u, rid)
    case SubmitReq(u, valid, st) => SubmitGame(s, u, valid, st)
    case StatusReq(u, g, raw) => UpdateGameStatus(s, u, g, raw)
    case LoginReq(u, ok) => LogIn(s, u, ok)
  }

  /**
    One request as an atomic step. Whatever the request, the ledger only
    grows, by at most one entry, and the set of users does not change; a
    refused request changes nothing at all.
   */
  function Step(s: State, req: Request): (r: (State, Outcome))
    ensures r.1.Refused? ==> r.0 == s
    ensures r.1.Refused? <==> Handle(s, req).Failure?
    ensures s.ledger <= r.0.ledger && |r.0.ledger| <= |s.ledger| + 1
    ensures r.0.points.Keys == s.points.Keys
  {
    match Handle(s, req)
    case Success(s') => (s', Accepted)
    case Failure(e) => (s, Refused(e))
  }

  /** Execute `reqs` in order. */
  function Run(s: State, reqs: seq<Request>): State
    decreases |reqs|
  {
    if reqs == [] then s else Run(Step(s, reqs[0]).0, reqs[1..])
  }

  /**
    Every request keeps participant rows unique, stock non-negative and
    game ids fresh; in particular a valid store never reaches the
    duplicate-row error of the leave lookup.
   */
  lemma StepPreservesValid(s: State, req: Request)
    requires Valid(s)
    ensures Valid(Step(s, req).0)
    ensures Step(s, req).1 != Refused(MultipleMemberships)
  {
    match req
    case JoinReq(u, t) => JoinPreservesValid(s, u, t);
    case LeaveReq(u, t) => LeavePreservesValid(s, u, t);
    case ClaimReq(u, rid) => ClaimPreservesValid(s, u, rid);
    case SubmitReq(u, valid, st) => SubmitPreservesValid(s, u, valid, st);
    case StatusReq(u, g, raw) => StatusPreservesValid(s, u, g, raw);
    case LoginReq(u, ok) =>
  }

  /** The membership guard keeps participant rows unique. */
  lemma JoinPreservesValid(s: State, u: UserId, t: TournamentId)
    requires Valid(s)
    ensures Join(s, u, t).Success? ==> Valid(Join(s, u, t).value)
  {
    if Join(s, u, t).Success? {
      var s' := Join(s, u, t).value;
      forall m ensures multiset(s'.members)[m] <= 1 {
        assert multiset(s.members)[m] <= 1;
      }
    }
  }

  lemma LeavePreservesValid(s: State, u: UserId, t: TournamentId)
    requires Valid(s)
    ensures Leave(s, u, t) != Failure(MultipleMemberships)
    ensures Leave(s, u, t).Success? ==> Valid(Leave(s, u, t).value)
  {
    assert multiset(s.members)[Membership(u, t)] <= 1;
    if Leave(s, u, t).Success? {
      var s' := Leave(s, u, t).value;
      forall m ensures multiset(s'.members)[m] <= 1 {
        assert multiset(s.members)[m] <= 1;
      }
    }
  }

  /** The stock guard runs before the decrement, so stock stays non-negative. */
  lemma ClaimPreservesValid(s: State, u: UserId, rid: Option<int>)
    requires Valid(s)
    ensures ClaimReward(s, u, rid).Success? ==> Valid(ClaimReward(s, u, rid).value)
  {
  }

  lemma SubmitPreservesValid(s: State, u: UserId, valid: bool, st: GameStatus)
    requires Valid(s)
    ensures SubmitGame(s, u, valid, st).Success? ==> Valid(SubmitGame(s, u, valid, st).value)
  {
  }

  lemma StatusPreservesValid(s: State, u: UserId, g: GameId, raw: Option<string>)
    requires Valid(s)
    ensures UpdateGameStatus(s, u, g, raw).Success? ==> Valid(UpdateGameStatus(s, u, g, raw).value)
  {
  }

  /** Every balance change a request makes is matched by the ledger entry it appends. */
  lemma StepKeepsBalanced(base: map<UserId, int>, s: State, req: Request)
    requires Balanced(base, s.points, s.ledger)
    ensures Balanced(base, Step(s, req).0.points, Step(s, req).0.ledger)
  {
    match req
    case JoinReq(u, t) => JoinKeepsBalanced(base, s, u, t);
    case LeaveReq(u, t) => LeaveKeepsBalanced(base, s, u, t);
    case ClaimReq(u, rid) => ClaimKeepsBalanced(base, s, u, rid);
    case StatusReq(u, g, raw) =>
    case SubmitReq(u, valid, st) => SubmitKeepsBalanced(base, s, u, valid, st);
    case LoginReq(u, ok) => LoginKeepsBalanced(base, s, u, ok);
  }

  lemma JoinKeepsBalanced(base: map<UserId, int>, s: State, u: UserId, t: TournamentId)
    requires Balanced(base, s.points, s.ledger)
    ensures Join(s, u, t).Success? ==>
              Balanced(base, Join(s, u, t).value.points, Join(s, u, t).value.ledger)
  {
    if Join(s, u, t).Success? {
      CreditKeepsBalanced(base, s.(members := s.members + [Membership(u, t)]), u, TournamentJoin, JoinBonus, Some(t), None);
    }
  }

  lemma LeaveKeepsBalanced(base: map<UserId, int>, s: State, u: UserId, t: TournamentId)
    requires Balanced(base, s.points, s.ledger)
    ensures Leave(s, u, t).Success? ==>
              Balanced(base, Leave(s, u, t).value.points, Leave(s, u, t).value.ledger)
  {
    if Leave(s, u, t).Success? {
      CreditKeepsBalanced(base, s.(members := Without(s.members, Membership(u, t))), u, TournamentLeave, -LeavePenalty, Some(t), None);
    }
  }

  lemma ClaimKeepsBalanced(base: map<UserId, int>, s: State, u: UserId, rid: Option<int>)
    requires Balanced(base, s.points, s.ledger)
    ensures ClaimReward(s, u, rid).Success? ==>
              Balanced(base, ClaimReward(s, u, rid).value.points, ClaimReward(s, u, rid).value.ledger)
  {
    if ClaimReward(s, u, rid).Success? {
      var id: RewardId := rid.value;
      var w := s.rewards[id];
      var claimed := s.(claims := s.claims + [Claim(u, id)], rewards := s.rewards[id := w.(stock := w.stock - 1)]);
      CreditKeepsBalanced(base, claimed, u, RewardClaim, -w.cost, None, Some(id));
    }
  }

  lemma SubmitKeepsBalanced(base: map<UserId, int>, s: State, u: UserId, valid: bool, st: GameStatus)
    requires Balanced(base, s.points, s.ledger)
    ensures SubmitGame(s, u, valid, st).Success? ==>
              Balanced(base, SubmitGame(s, u, valid, st).value.points, SubmitGame(s, u, valid, st).value.ledger)
  {
    if SubmitGame(s, u, valid, st).Success? {
      CreditKeepsBalanced(base, s.(games := s.games[s.nextGame := st], nextGame := s.nextGame + 1), u, PointsEarned, SubmitBonus, None, None);
    }
  }

  lemma LoginKeepsBalanced(base: map<UserId, int>, s: State, u: UserId, ok: bool)
    requires Balanced(base, s.points, s.ledger)
    ensures LogIn(s, u, ok).Success? ==>
              Balanced(base, LogIn(s, u, ok).value.points, LogIn(s, u, ok).value.ledger)
  {
    if LogIn(s, u, ok).Success? {
      CreditKeepsBalanced(base, s, u, Login, 0, None, None);
    }
  }

  /**
    A request by one user leaves every other user's dashboard exactly as it
    was: their rows, claims, activity and balance.
   */
  lemma StepIsolation(s: State, req: Request, v: UserId)
    requires v in s.points && v != req.user
    ensures v in Step(s, req).0.points
    ensures BoardOf(Step(s, req).0, v) == BoardOf(s, v)
  {
    if Handle(s, req).Success? {
      match req
      case JoinReq(u, t) => JoinIsolation(s, u, t, v);
      case LeaveReq(u, t) => LeaveIsolation(s, u, t, v);
      case ClaimReq(u, rid) => ClaimIsolation(s, u, rid, v);
      case SubmitReq(u, valid, st) =>
        OtherEntryHidden(s.ledger, Entry(u, PointsEarned, SubmitBonus, None, None), v);
      case StatusReq(u, g, raw) =>
      case LoginReq(u, ok) =>
        OtherEntryHidden(s.ledger, Entry(u, Login, 0, None, None), v);
    }
  }

  lemma JoinIsolation(s: State, u: UserId, t: TournamentId, v: UserId)
    requires Join(s, u, t).Success? && v in s.points && v != u
    ensures BoardOf(Join(s, u, t).value, v) == BoardOf(s, v)
  {
    var s' := Join(s, u, t).value;
    assert s'.members == s.members + [Membership(u, t)];
    TournamentsOfAppend(s.members, [Membership(u, t)], v);
    assert [Membership(u, t)][1..] == [];
    OtherEntryHidden(s.ledger, Entry(u, TournamentJoin, JoinBonus, Some(t), None), v);
  }

  lemma LeaveIsolation(s: State, u: UserId, t: TournamentId, v: UserId)
    requires Leave(s, u, t).Success? && v in s.points && v != u
    ensures BoardOf(Leave(s, u, t).value, v) == BoardOf(s, v)
  {
    var s' := Leave(s, u, t).value;
    assert s'.members == Without(s.members, Membership(u, t));
    TournamentsOfWithout(s.members, Membership(u, t), v);
    OtherEntryHidden(s.ledger, Entry(u, TournamentLeave, -LeavePenalty, Some(t), None), v);
  }

  lemma ClaimIsolation(s: State, u: UserId, rid: Option<int>, v: UserId)
    requires ClaimReward(s, u, rid).Success? && v in s.points && v != u
    ensures BoardOf(ClaimReward(s, u, rid).value, v) == BoardOf(s, v)
  {
    RewardsOfAppend(s.claims, [Claim(u, rid.value)], v);
    assert [Claim(u, rid.value)][1..] == [];
    OtherEntryHidden(s.ledger, Entry(u, RewardClaim, -s.rewards[rid.value].cost, None, Some(rid.value as RewardId)), v);
  }

  /** An entry of another user does not show in `v`'s activity. */
  lemma OtherEntryHidden(log: seq<Entry>, e: Entry, v: UserId)
    requires e.user != v
    ensures EntriesOf(log + [e], v) == EntriesOf(log, v)
  {
    EntriesOfAppend(log, [e], v);
    assert [e][1..] == [];
  }

  lemma {:induction false} RunPreservesValid(s: State, reqs: seq<Request>)
    requires Valid(s)
    ensures Valid(Run(s, reqs))
    decreases |reqs|
  {
    if reqs != [] {
      StepPreservesValid(s, reqs[0]);
      RunPreservesValid(Step(s, reqs[0]).0, reqs[1..]);
    }
  }

  /** The ledger is append-only across any sequence of requests. */
  lemma {:induction false} RunKeepsBalanced(base: map<UserId, int>, s: State, reqs: seq<Request>)
    requires Balanced(base, s.points, s.ledger)
    ensures Balanced(base, Run(s, reqs).points, Run(s, reqs).ledger)
    ensures s.ledger <= Run(s, reqs).ledger
    decreases |reqs|
  {
    if reqs != [] {
      StepKeepsBalanced(base, s, reqs[0]);
      RunKeepsBalanced(base, Step(s, reqs[0]).0, reqs[1..]);
    }
  }

  /**
    Starting from an empty ledger, after any sequence of requests each
    user's balance differs from its starting value by exactly the sum of
    the `pointsChange` of that user's ledger entries.
   */
  lemma LedgerAccountsForBalances(s0: State, reqs: seq<Request>)
    requires s0.ledger == []
    ensures var s := Run(s0, reqs);
            && s.points.Keys == s0.points.Keys
            && forall u :: u in s0.points ==> s.points[u] - s0.points[u] == Net(s.ledger, u)
  {
    RunKeepsBalanced(s0.points, s0, reqs);
  }
}

=== FILE: scenarios.dfy ===
/** Concrete request sequences on a small store. */
module Scenarios {
  import opened Wrappers
  import opened Ledger
  import opened Store
  import opened Views

  /** User 1 has 150 points, user 2 has 500; tournament 7 exists; reward 3 costs 300 with one unit left. */
  function Sample(): State
  {
    State(map[1 := 150, 2 := 500], {7}, [], map[3 := Reward(300, 1, true)], [], map[], 1, [])
  }

  lemma JoinScenario()
    ensures var r := Join(Sample(), 1, 7);
            && r.Success?
            && r.value.points[1] == 160
            && r.value.ledger == [Entry(1, TournamentJoin, 10, Some(7), None)]
  {
  }

  lemma InsufficientPointsScenario()
    ensures ClaimReward(Sample(), 1, Some(3)) == Failure(InsufficientPoints)
  {
  }

  /** The last unit goes to the first claimant; every later claim is out of stock. */
  lemma LastUnitScenario()
    ensures var r := ClaimReward(Sample(), 2, Some(3));
            && r.Success?
            && r.value.points[2] == 200
            && r.value.rewards[3].stock == 0
            && forall v :: v in r.value.points ==> ClaimReward(r.value, v, Some(3)) == Failure(OutOfStock)
  {
  }

  /** Leaving has no floor: a user who spent down to 5 points ends at -5. */
  lemma LeaveOverdrawScenario()
    ensures var s := Sample().(points := map[1 := 5, 2 := 500], members := [Membership(1, 7)]);
            && Leave(s, 1, 7).Success?
            && Leave(s, 1, 7).value.points[1] == -5
  {
    var s := Sample().(points := map[1 := 5, 2 := 500], members := [Membership(1, 7)]);
    assert multiset(s.members)[Membership(1, 7)] == 1;
  }

  /** A submitted game earns 25 points through one activity entry. */
  lemma SubmitScenario()
    ensures var r := SubmitGame(Sample(), 1, true, Pending);
            && r.Success?
            && r.value.points[1] == 175
            && r.value.ledger == [Entry(1, PointsEarned, 25, None, None)]
            && r.value.games == map[1 := Pending]
  {
  }

  /** Zero is falsy and is refused before the lookup; a negative id is truthy and is not found. */
  lemma RewardIdScenario()
    ensures ClaimReward(Sample(), 2, Some(0)) == Failure(RewardIdRequired)
    ensures ClaimReward(Sample(), 2, Some(-3)) == Failure(RewardNotFound)
    ensures ClaimReward(Sample(), 2, None) == Failure(RewardIdRequired)
  {
  }
}

=== FILE: store.dfy ===
/**
  The relational store behind the views: point balances (one profile per
  user), tournaments, participant rows, the reward catalogue, claim rows,
  the game table and the activity ledger.
 */
module Store {
  import opened Wrappers
  import opened Ledger

  type GameId = nat

  /** A participant row: user `user` is enrolled in tournament `tournament`. */
  datatype Membership = Membership(user: UserId, tournament: TournamentId)

  /** A catalogue entry: its price in points, the units left and whether it is offered. */
  datatype Reward = Reward(cost: int, stock: int, active: bool)

  /** A claim row, one per successful redemption. */
  datatype Claim = Claim(user: UserId, reward: RewardId)

  /** The fixed status choices of a submitted game. */
  datatype GameStatus = Pending | Testing | Approved | Rejected

  datatype State = State(
    points: map<UserId, int>,
    tournaments: set<TournamentId>,
    members: seq<Membership>,
    rewards: map<RewardId, Reward>,
    claims: seq<Claim>,
    games: map<GameId, GameStatus>,
    nextGame: GameId,
    ledger: seq<Entry>)

  /** The participant rows with every row equal to `m` deleted. */
  function Without(rows: seq<Membership>, m: Membership): (r: seq<Membership>)
    ensures m !in r
    ensures forall x :: x != m ==> multiset(r)[x] == multiset(rows)[x]
  {
    if rows == [] then []
    else
      assert rows == [rows[0]] + rows[1..];
      (if rows[0] == m then [] else [rows[0]]) + Without(rows[1..], m)
  }

  /** No (user, tournament) pair has more than one participant row. */
  ghost predicate NoDoubleMembership(rows: seq<Membership>)
  {
    forall m :: multiset(rows)[m] <= 1
  }

  ghost predicate StockNonNegative(rewards: map<RewardId, Reward>)
  {
    forall id :: id in rewards ==> rewards[id].stock >= 0
  }

  /** The store invariants every view preserves. */
  ghost predicate Valid(s: State)
  {
    && NoDoubleMembership(s.members)
    && StockNonNegative(s.rewards)
    && forall g :: g in s.games ==> g < s.nextGame
  }

  /**
    The ledger primitive: move the balance of `u` by `delta` and append the
    matching activity row; nothing else in the store changes.
   */
  function Credit(s: State, u: UserId, kind: Kind, delta: int,
                  t: Option<TournamentId>, w: Option<RewardId>): (r: State)
    requires u in s.points
  {
    s.(points := s.points[u := s.points[u] + delta],
       ledger := s.ledger + [Entry(u, kind, delta, t, w)])
  }

  /** Every balance change made through `Credit` is matched by its ledger entry. */
  lemma CreditKeepsBalanced(base: map<UserId, int>, s: State, u: UserId, kind: Kind, delta: int,
                            t: Option<TournamentId>, w: Option<RewardId>)
    requires u in s.points
    requires Balanced(base, s.points, s.ledger)
    ensures Balanced(base, Credit(s, u, kind, delta, t, w).points, Credit(s, u, kind, delta, t, w).ledger)
  {
    PostKeepsBalanced(base, s.points, s.ledger, Entry(u, kind, delta, t, w));
  }
}

=== FILE: views.dfy ===
/**
  The point-affecting views, each one request executed as a single atomic
  step: a pure transition from the store to either the new store or the
  error response. A failed view produces no store, so it changes nothing.
 */
module Views {
  import opened Wrappers
  import opened Ledger
  import opened Store

  const JoinBonus := 10
  const LeavePenalty := 10
  const SubmitBonus := 25

  /** The error responses of the views. */
  datatype Error =
    | NotAuthenticated      // the permission check: no logged-in user with a profile
    | InvalidCredentials    // the login serializer rejected the request
    | TournamentNotFound
    | AlreadyJoined
    | NotEnrolled
    | MultipleMemberships   // the participant lookup found more than one row
    | RewardIdRequired
    | RewardNotFound
    | RewardInactive
    | OutOfStock
    | InsufficientPoints
    | InvalidGame           // the game serializer rejected the submission
    | GameNotFound
    | InvalidStatus

  /** Tournament, reward, claim and game tables are untouched. */
  ghost predicate CatalogUnchanged(s: State, s': State)
  {
    && s'.tournaments == s.tournaments
    && s'.rewards == s.rewards
    && s'.claims == s.claims
    && s'.games == s.games
    && s'.nextGame == s.nextGame
  }

  /** Join tournament `t` as user `u`, earning the join bonus. */
  function Join(s: State, u: UserId, t: TournamentId): (r: Result<State, Error>)
    ensures u !in s.points ==> r == Failure(NotAuthenticated)
    ensures u in s.points && t !in s.tournaments ==> r == Failure(TournamentNotFound)
    ensures u in s.points && t in s.tournaments && Membership(u, t) in s.members ==>
              r == Failure(AlreadyJoined)
    ensures r.Success? <==> u in s.points && t in s.tournaments && Membership(u, t) !in s.members
    ensures r.Success? ==>
              && multiset(r.value.members) == multiset(s.members) + multiset{Membership(u, t)}
              && multiset(r.value.members)[Membership(u, t)] == 1
              && r.value.points == s.points[u := s.points[u] + JoinBonus]
              && r.value.ledger == s.ledger + [Entry(u, TournamentJoin, JoinBonus, Some(t), None)]
              && CatalogUnchanged(s, r.value)
  {
    if u !in s.points then Failure(NotAuthenticated)
    else if t !in s.tournaments then Failure(TournamentNotFound)
    else if Membership(u, t) in s.members then Failure(AlreadyJoined)
    else
      var joined := s.(members := s.members + [Membership(u, t)]);
      Success(Credit(joined, u, TournamentJoin, JoinBonus, Some(t), None))
  }

  /**
    Leave tournament `t` as user `u`, losing the join bonus again. The
    participant row is looked up as a single row, so two rows for the same
    pair is an error; the balance has no floor.
   */
  function Leave(s: State, u: UserId, t: TournamentId): (r: Result<State, Error>)
    ensures u !in s.points ==> r == Failure(NotAuthenticated)
    ensures u in s.points && t !in s.tournaments ==> r == Failure(TournamentNotFound)
    ensures u in s.points && t in s.tournaments && Membership(u, t) !in s.members ==>
              r == Failure(NotEnrolled)
    ensures u in s.points && t in s.tournaments && multiset(s.members)[Membership(u, t)] > 1 ==>
              r == Failure(MultipleMemberships)
    ensures r.Success? <==>
              u in s.points && t in s.tournaments && multiset(s.members)[Membership(u, t)] == 1
    ensures r.Success? ==>
              && Membership(u, t) !in r.value.members
              && (forall m :: m != Membership(u, t) ==> multiset(r.value.members)[m] == multiset(s.members)[m])
              && r.value.points == s.points[u := s.points[u] - LeavePenalty]
              && r.value.ledger == s.ledger + [Entry(u, TournamentLeave, -LeavePenalty, Some(t), None)]
              && CatalogUnchanged(s, r.value)
  {
    if u !in s.points then Failure(NotAuthenticated)
    else if t !in s.tournaments then Failure(TournamentNotFound)
    else
      var m := Membership(u, t);
      var rows := multiset(s.members)[m];
      if rows == 0 then Failure(NotEnrolled)
      else if rows > 1 then Failure(MultipleMemberships)
      else
        var left := s.(members := Without(s.members, m));
        Success(Credit(left, u, TournamentLeave, -LeavePenalty, Some(t), None))
  }

  /** The request's reward id is missing or falsy (absent, or the number zero). */
  predicate Falsy(rid: Option<int>)
  {
    rid == None || rid == Some(0)
  }

  /**
    Redeem reward `rid` as user `u`. The checks run in a fixed order and the
    first one that fails decides the response. A truthy id that names no
    reward, a negative one included, is not found.
   */
  function ClaimReward(s: State, u: UserId, rid: Option<int>): (r: Result<State, Error>)
    ensures u !in s.points ==> r == Failure(NotAuthenticated)
    ensures u in s.points && Falsy(rid) ==> r == Failure(RewardIdRequired)
    ensures u in s.points && !Falsy(rid) && rid.value !in s.rewards ==> r == Failure(RewardNotFound)
    ensures u in s.points && !Falsy(rid) && rid.value in s.rewards ==>
              var w := s.rewards[rid.value];
              && (!w.active ==> r == Failure(RewardInactive))
              && (w.active && w.stock <= 0 ==> r == Failure(OutOfStock))
              && (w.active && w.stock > 0 && s.points[u] < w.cost ==> r == Failure(InsufficientPoints))
              && (w.active && w.stock > 0 && s.points[u] >= w.cost ==> r.Success?)
    ensures r.Success? ==>
              var id := rid.value;
              var w := s.rewards[id];
              && u in s.points && id in s.rewards
              && r.value.claims == s.claims + [Claim(u, id)]
              && r.value.points == s.points[u := s.points[u] - w.cost]
              && r.value.points[u] >= 0
              && r.value.rewards == s.rewards[id := w.(stock := w.stock - 1)]
              && r.value.rewards[id].stock >= 0
              && r.value.ledger == s.ledger + [Entry(u, RewardClaim, -w.cost, None, Some(id))]
              && r.value.members == s.members
              && r.value.tournaments == s.tournaments
              && r.value.games == s.games
              && r.value.nextGame == s.nextGame
  {
    if u !in s.points then Failure(NotAuthenticated)
    else if Falsy(rid) then Failure(RewardIdRequired)
    else if rid.value !in s.rewards then Failure(RewardNotFound)
    else
      var id := rid.value;
      var w := s.rewards[id];
      if !w.active then Failure(RewardInactive)
      else if w.stock <= 0 then Failure(OutOfStock)
      else if s.points[u] < w.cost then Failure(InsufficientPoints)
      else
        var claimed := s.(claims := s.claims + [Claim(u, id)],
                          rewards := s.rewards[id := w.(stock := w.stock - 1)]);
        Success(Credit(claimed, u, RewardClaim, -w.cost, None, Some(id)))
  }

  /**
    Submit a game as user `u` with the submitted `status`; `valid` is the
    verdict of the game serializer. The new game takes the next free id.
   */
  function SubmitGame(s: State, u: UserId, valid: bool, status: GameStatus): (r: Result<State, Error>)
    ensures u !in s.points ==> r == Failure(NotAuthenticated)
    ensures u in s.points && !valid ==> r == Failure(InvalidGame)
    ensures r.Success? <==> u in s.points && valid
    ensures r.Success? ==>
              && r.value.games == s.games[s.nextGame := status]
              && r.value.nextGame > s.nextGame
              && r.value.points == s.points[u := s.points[u] + SubmitBonus]
              && r.value.ledger == s.ledger + [Entry(u, PointsEarned, SubmitBonus, None, None)]
              && r.value.members == s.members
              && r.value.claims == s.claims
              && r.value.rewards == s.rewards
              && r.value.tournaments == s.tournaments
  {
    if u !in s.points then Failure(NotAuthenticated)
    else if !valid then Failure(InvalidGame)
    else
      var submitted := s.(games := s.games[s.nextGame := status], nextGame := s.nextGame + 1);
      Success(Credit(submitted, u, PointsEarned, SubmitBonus, None, None))
  }

  /** The stored key of each status choice. */
  function StatusKey(st: GameStatus): string
  {
    match st
    case Pending => "pending"
    case Testing => "testing"
    case Approved => "approved"
    case Rejected => "rejected"
  }

  /** Reads the `status` field of a request; anything but a status key is rejected. */
  function ParseStatus(raw: Option<string>): (r: Option<GameStatus>)
    ensures r.Some? ==> raw == Some(StatusKey(r.value))
  {
    match raw
    case None => None
    case Some(key) =>
      if key == "pending" then Some(Pending)
      else if key == "testing" then Some(Testing)
      else if key == "approved" then Some(Approved)
      else if key == "rejected" then Some(Rejected)
      else None
  }

  /** Every status key is accepted, as the status it names. */
  lemma ParseStatusKey(st: GameStatus)
    ensures ParseStatus(Some(StatusKey(st))) == Some(st)
  {
    match st
    case Pending =>
    case Testing =>
    case Approved =>
    case Rejected =>
  }

  /** Set the status of game `g`; no points move and no activity is recorded. */
  function UpdateGameStatus(s: State, u: UserId, g: GameId, raw: Option<string>): (r: Result<State, Error>)
    ensures u !in s.points ==> r == Failure(NotAuthenticated)
    ensures u in s.points && g !in s.games ==> r == Failure(GameNotFound)
    ensures u in s.points && g in s.games && ParseStatus(raw) == None ==> r == Failure(InvalidStatus)
    ensures r.Success? <==> u in s.points && g in s.games && ParseStatus(raw).Some?
    ensures r.Success? ==>
              && r.value.games.Keys == s.games.Keys
              && raw == Some(StatusKey(r.value.games[g]))
              && (forall h :: h in s.games && h != g ==> r.value.games[h] == s.games[h])
              && r.value.points == s.points
              && r.value.ledger == s.ledger
              && r.value.members == s.members
              && r.value.claims == s.claims
              && r.value.rewards == s.rewards
              && r.value.tournaments == s.tournaments
              && r.value.nextGame == s.nextGame
  {
    if u !in s.points then Failure(NotAuthenticated)
    else if g !in s.games then Failure(GameNotFound)
    else
      match ParseStatus(raw)
      case None => Failure(InvalidStatus)
      case Some(st) => Success(s.(games := s.games[g := st]))
  }

  /**
    The ledger side of a login: a zero-point `Login` entry. `credentialsOk`
    is the verdict of the login serializer.
   */
  function LogIn(s: State, u: UserId, credentialsOk: bool): (r: Result<State, Error>)
    ensures r.Success? <==> credentialsOk && u in s.points
    ensures r.Failure? ==> r.error == InvalidCredentials
    ensures r.Success? ==>
              && r.value.points == s.points
              && r.value.ledger == s.ledger + [Entry(u, Login, 0, None, None)]
              && r.value.members == s.members
              && CatalogUnchanged(s, r.value)
  {
    if !credentialsOk || u !in s.points then Failure(InvalidCredentials)
    else Success(Credit(s, u, Login, 0, None, None))
  }
}

=== FILE: workflows.dfy ===
/**
  Properties that relate several views: the tournament membership life
  cycle and what each view shows on the caller's own dashboard.
 */
module Workflows {
  import opened Wrappers
  import opened Ledger
  import opened Store
  import opened Views
  import opened Dashboard
  import opened Requests

  /** Deleting the rows of `m` right after appending the first one restores the table. */
  lemma {:induction false} WithoutUndoesAppend(rows: seq<Membership>, m: Membership)
    requires m !in rows
    ensures Without(rows + [m], m) == rows
  {
    if rows == [] {
      assert [m][1..] == [];
    } else {
      assert (rows + [m])[1..] == rows[1..] + [m];
      WithoutUndoesAppend(rows[1..], m);
      assert rows == [rows[0]] + rows[1..];
    }
  }

  /**
    A participant row survives every request except a leave of that same
    pair; no request adds or removes users or tournaments.
   */
  lemma MembershipSurvivesStep(s: State, req: Request, u: UserId, t: TournamentId)
    requires Membership(u, t) in s.members
    requires req != LeaveReq(u, t)
    ensures Membership(u, t) in Step(s, req).0.members
    ensures Step(s, req).0.tournaments == s.tournaments
  {
    match req
    case LeaveReq(a, b) =>
      if Leave(s, a, b).Success? {
        assert multiset(Leave(s, a, b).value.members)[Membership(u, t)] == multiset(s.members)[Membership(u, t)];
      }
    case _ =>
  }

  /** Over any requests that include no leave of the pair, its participant row stays. */
  lemma {:induction false} MembershipPersists(s: State, reqs: seq<Request>, u: UserId, t: TournamentId)
    requires Membership(u, t) in s.members
    requires forall i :: 0 <= i < |reqs| ==> reqs[i] != LeaveReq(u, t)
    ensures Membership(u, t) in Run(s, reqs).members
    ensures Run(s, reqs).points.Keys == s.points.Keys
    ensures Run(s, reqs).tournaments == s.tournaments
    decreases |reqs|
  {
    if reqs != [] {
      MembershipSurvivesStep(s, reqs[0], u, t);
      assert forall i :: 0 <= i < |reqs[1..]| ==> reqs[1..][i] == reqs[i + 1];
      MembershipPersists(Step(s, reqs[0]).0, reqs[1..], u, t);
    }
  }

  /**
    Joining again without leaving fails with `AlreadyJoined`, whatever
    requests came in between, as long as none of them was a leave of that
    same pair.
   */
  lemma JoinTwiceFails(s: State, u: UserId, t: TournamentId, reqs: seq<Request>)
    requires Join(s, u, t).Success?
    requires forall i :: 0 <= i < |reqs| ==> reqs[i] != LeaveReq(u, t)
    ensures Join(Run(Join(s, u, t).value, reqs), u, t) == Failure(AlreadyJoined)
  {
    var s1 := Join(s, u, t).value;
    assert multiset(s1.members)[Membership(u, t)] == 1;
    MembershipPersists(s1, reqs, u, t);
  }

  /**
    Leaving right after joining restores the participant rows and the
    balance; the ledger keeps both entries, whose changes cancel out, and
    joining again is allowed.
   */
  lemma JoinThenLeave(s: State, u: UserId, t: TournamentId)
    requires Join(s, u, t).Success?
    ensures var s1 := Join(s, u, t).value;
            && Leave(s1, u, t).Success?
            && var s2 := Leave(s1, u, t).value;
            && s2.members == s.members
            && s2.points == s.points
            && s2.ledger == s.ledger + [Entry(u, TournamentJoin, JoinBonus, Some(t), None),
                                        Entry(u, TournamentLeave, -LeavePenalty, Some(t), None)]
            && Net(s2.ledger, u) == Net(s.ledger, u)
            && CatalogUnchanged(s, s2)
            && Join(s2, u, t).Success?
  {
    var s1 := Join(s, u, t).value;
    var s2 := LeaveRestoresRows(s, u, t);
    var e1 := Entry(u, TournamentJoin, JoinBonus, Some(t), None);
    var e2 := Entry(u, TournamentLeave, -LeavePenalty, Some(t), None);
    assert s2.ledger == (s.ledger + [e1]) + [e2];
    NetAppend(s.ledger, e1, u);
    NetAppend(s.ledger + [e1], e2, u);
  }

  /** The participant table and balances after join-then-leave. */
  lemma LeaveRestoresRows(s: State, u: UserId, t: TournamentId) returns (s2: State)
    requires Join(s, u, t).Success?
    ensures Leave(Join(s, u, t).value, u, t) == Success(s2)
    ensures s2.members == s.members
    ensures s2.points == s.points
  {
    var m := Membership(u, t);
    var s1 := Join(s, u, t).value;
    assert s1.members == s.members + [m];
    assert multiset(s1.members)[m] == 1;
    var left := s1.(members := Without(s1.members, m));
    s2 := Credit(left, u, TournamentLeave, -LeavePenalty, Some(t), None);
    assert Leave(s1, u, t) == Success(s2);
    WithoutUndoesAppend(s.members, m);
  }

  /** A new entry of `u` is the first activity on `u`'s dashboard. */
  lemma NewestEntryShownFirst(log: seq<Entry>, e: Entry)
    ensures var a := Take(Reverse(EntriesOf(log + [e], e.user)), ActivityLimit);
            |a| > 0 && a[0] == e
  {
    EntriesOfAppend(log, [e], e.user);
    assert [e][1..] == [];
    assert EntriesOf([e], e.user) == [e];
    ReverseAppend(EntriesOf(log, e.user), [e]);
    assert Reverse([e]) == [e];
    var xs := Reverse(EntriesOf(log + [e], e.user));
    assert xs == [e] + Reverse(EntriesOf(log, e.user));
    assert xs[0] == e;
  }

  /** A join adds the tournament to the caller's count, the bonus to their points and the entry to their activity. */
  lemma JoinOnDashboard(s: State, u: UserId, t: TournamentId)
    requires Join(s, u, t).Success?
    ensures var b, b' := BoardOf(s, u), BoardOf(Join(s, u, t).value, u);
            && b'.tournaments == b.tournaments + [t]
            && b'.stats == b.stats.(totalTournaments := b.stats.totalTournaments + 1,
                                    totalPoints := b.stats.totalPoints + JoinBonus)
            && |b'.activity| > 0 && b'.activity[0] == Entry(u, TournamentJoin, JoinBonus, Some(t), None)
  {
    var s' := Join(s, u, t).value;
    assert s'.members == s.members + [Membership(u, t)];
    TournamentsOfAppend(s.members, [Membership(u, t)], u);
    assert [Membership(u, t)][1..] == [];
    NewestEntryShownFirst(s.ledger, Entry(u, TournamentJoin, JoinBonus, Some(t), None));
  }

  /** A leave removes the tournament from the caller's count and the penalty from their points. */
  lemma LeaveOnDashboard(s: State, u: UserId, t: TournamentId)
    requires Leave(s, u, t).Success?
    ensures var b, b' := BoardOf(s, u), BoardOf(Leave(s, u, t).value, u);
            && b'.stats.totalTournaments + 1 == b.stats.totalTournaments
            && b'.stats.totalRewards == b.stats.totalRewards
            && b'.stats.totalPoints == b.stats.totalPoints - LeavePenalty
            && |b'.activity| > 0 && b'.activity[0] == Entry(u, TournamentLeave, -LeavePenalty, Some(t), None)
  {
    var s' := Leave(s, u, t).value;
    assert s'.members == Without(s.members, Membership(u, t));
    TournamentsOfWithout(s.members, Membership(u, t), u);
    NewestEntryShownFirst(s.ledger, Entry(u, TournamentLeave, -LeavePenalty, Some(t), None));
  }

  /** A claim adds the reward to the caller's list and takes its cost off their points. */
  lemma ClaimOnDashboard(s: State, u: UserId, id: RewardId)
    requires ClaimReward(s, u, Some(id)).Success?
    ensures var b, b' := BoardOf(s, u), BoardOf(ClaimReward(s, u, Some(id)).value, u);
            && b'.rewards == b.rewards + [id]
            && b'.stats == b.stats.(totalRewards := b.stats.totalRewards + 1,
                                    totalPoints := b.stats.totalPoints - s.rewards[id].cost)
            && |b'.activity| > 0 && b'.activity[0] == Entry(u, RewardClaim, -s.rewards[id].cost, None, Some(id))
  {
    RewardsOfAppend(s.claims, [Claim(u, id)], u);
    assert [Claim(u, id)][1..] == [];
    NewestEntryShownFirst(s.ledger, Entry(u, RewardClaim, -s.rewards[id].cost, None, Some(id)));
  }
}

=== FILE: wrappers.dfy ===
/** The optional-value and result types used by every view of the model. */
module Wrappers {

  /** An optional value: a request field that may be absent, a related row that may be missing. */
  datatype Option<+T> = None | Some(value: T)

  /** The outcome of a view: the new store on success, the error response otherwise. */
  datatype Result<+T, +E> = Success(value: T) | Failure(error: E)
}
